=== FILE: README.md ===
# Phluid dispatch core in Dafny

A model of the dispatch core of the Phluid PHP micro-framework:

- **Router** (`Classes/Router.php`): an ordered list of routes; `find` returns the first
  route whose `matches` accepts the request, `route` appends, `prepend` inserts at the front.
  How a route matches is outside the model and is passed in as a predicate.
- **App middleware stack** (`lib/Phluid/App.php`): the state `(middleware, routerMounted)`,
  `inject`, `serve` (router auto-mount, then the stage list handed to the filter runner),
  `__invoke`, and the registration helpers `on`, `route`, `get`, `post`.
- **Views** (`lib/Phluid/View.php`): `fullPath`, `getLayout`, and `render` with a single
  level of layout; template evaluation is an abstract partial function from the resolved
  path and the locals to the captured output.

Modules: `Values` (Option/Result), `Routing`, `Application`, `Views`.

Behaviour of the code worth noting:

- The router can sit on the stack more than once. `serve` never adds it a second time, but
  injecting it explicitly twice puts it there twice. `Application.RunRouterCount` states the
  exact count.
- `__invoke` pushes `next` onto the local copy of the stage list instead of calling it after
  serving, so it is the last stage handed to the filter runner.
- A missing template throws `Phluid_Exception_MissingView` with code 404.

## Model

| member | source | states |
|---|---|---|
| Routing.EmptyRouter | Classes/Router.php:7 | a new router holds no routes |
| Routing.FirstIndex | Classes/Router.php:9-15 | the index found holds a matching route and no earlier route matches; nothing is found exactly when no route matches |
| Routing.FindRoute | Classes/Router.php:9-15 | the foreach loop returns the first route in list order that matches, null exactly when none matches, and agrees with the reference definition `Find` |
| Routing.AddRoute | Classes/Router.php:17-23 | the new list is the old list, in order, followed by the new route; length grows by one |
| Routing.Prepend | Classes/Router.php:25-31 | the new route comes first and every earlier route shifts one index up, in the same order |
| Routing.EarlierRouteWins | Classes/Router.php:9-15 | of two routes matching one request, the later-registered one is never the answer |
| Routing.PrependTakesPrecedence | Classes/Router.php:9-31 | after prepend, a request the new route matches finds that route over every earlier one; other requests find what they found before |
| Routing.AddRouteKeepsEarlierMatches | Classes/Router.php:9-23 | appending never changes the answer for a request that already had a match; an unmatched request finds the new route exactly when it matches |
| Routing.ChainedRoutesKeepOrder | Classes/Router.php:17-23 | chained route calls register in call order, since each returns the updated router |
| Application.NewApp | lib/Phluid/App.php:7-25 | a new app has an empty stack, an unmounted router and no registrations |
| Application.Inject | lib/Phluid/App.php:133-137 | the stage is appended at the end; the mounted flag becomes true when the stage is the app's router and is unchanged otherwise |
| Application.Mount | lib/Phluid/App.php:80-81 | after serving the router is mounted; it is appended only when it was not mounted, and an already-mounted app is left as it was |
| Application.Serve | lib/Phluid/App.php:78-90 | the stage list is the stored stack followed by `next` when given; the stored stack changes only by the mount; the response returned is the one given, or a freshly built one |
| Application.Invoke | lib/Phluid/App.php:99-101 | invoking the app is serving it |
| Application.Route | lib/Phluid/App.php:168-171 | the registration is delegated to the router after the earlier ones; the stack and flag are untouched and the app is returned |
| Application.On | lib/Phluid/App.php:155-157 | registers with a request matcher for the given method and path |
| Application.Get | lib/Phluid/App.php:183-185 | delegates to `on` with method GET |
| Application.Post | lib/Phluid/App.php:197-199 | delegates to `on` with method POST |
| Application.ServeMountsAtMostOnce | lib/Phluid/App.php:78-90 | a second serve leaves the stored stack exactly as the first serve left it |
| Application.ServeKeepsExplicitRouter | lib/Phluid/App.php:81-85 | a router injected before the first serve keeps its position and is not appended again |
| Application.ServeRouterCount | lib/Phluid/App.php:81 | serve keeps the flag in step with the stack and leaves the router on it once if absent, otherwise as often as before |
| Application.RunRouterCount | lib/Phluid/App.php:78-137 | along any sequence of inject, serve and route calls the flag is true exactly when the router is on the stack, and the router appears once per explicit inject plus once if a serve mounted it first |
| Application.ImplicitRouterMountedOnce | lib/Phluid/App.php:81 | an app whose router is never injected explicitly has it on the stack exactly once after it has served |
| Views.FullPath | lib/Phluid/View.php:57-60 | the full path splits into the directory, a slash, the template name and `.php` |
| Views.FullPathInjective | lib/Phluid/View.php:57-60 | in one directory, equal full paths mean equal template names |
| Views.MissingView | lib/Phluid/View.php:64-67 | the exception carries the given message and code 404 |
| Views.GetLayout | lib/Phluid/View.php:47-51 | no view when the layout is unset or PHP-falsy; otherwise a view of the layout template in the same directory with no layout |
| Views.LayoutHasNoLayout | lib/Phluid/View.php:47-51 | the layout view has no layout of its own |
| Views.RenderLayoutNestsOnce | lib/Phluid/View.php:39-49 | rendering a layout view evaluates only the layout template: its output, or a 404 naming the layout's path, with no further layout |
| Views.ArrayMerge | lib/Phluid/View.php:40 | the merge holds every key of both sides, the right side winning on shared keys |
| Views.LayoutLocals | lib/Phluid/View.php:40 | the layout sees every caller local except `content`, which is bound to the template output even when the caller passed one |
| Views.RenderDelegatesToLayout | lib/Phluid/View.php:39-43 | with a layout, rendering is rendering the layout view with the merged locals |
| Views.Render | lib/Phluid/View.php:28-67 | an unloadable template fails with "Missing template " plus its full path and code 404, before any layout; without a layout the result is the template output; with one it is the layout's output over the merged locals, or a 404 naming the layout's path |

## Left out

- `App::run`, `sendResponseHeaders` and the output buffering around them: transport I/O.
- `App::__get`, `App::__set` and the `Settings` built by the constructor: the settings class is not part of this model.
- `App::buildResponse`: builds a `Response`, which is not part of this model; `Serve` takes the constructor as a parameter.
- `Utils::performFilters`: not part of this model; `Serve` stops at the stage list handed to it.
- `Route`, `RequestMatcher`, `Request` and `Response`: not part of this model; route matching is an abstract predicate, and `:name` segments are not modelled.
- The router that `lib/Phluid/App.php` delegates to is not `Classes/Router.php` (it takes a matcher, filters and an action) and is not part of this model; the app records the delegated registrations in order.
- `View::hasLayout`: when `$this->layout` is loosely null it reads the undeclared static `self::$layout` and throws an `Error`; nothing in the core calls it.
- PHP `include` and `extract`: template evaluation is an abstract partial function; a template that returns `false` is treated like one that cannot be loaded, which is what the `=== false` test does.
- Views.Render: does not model a template that rebinds `$locals` or other variables of `render`'s scope, nor a local named `locals` overwriting the array that is merged for the layout; nor writes to `$this->layout`, `$this->template` or `$this->path` (the included template runs in the view's class scope). Such a template can give a view a layout it did not have, give the layout view a layout of its own so that nesting goes deeper or never stops, or change the path the missing-view message names; the one-level bound, the `decreases` clause and the closed-form layout result hold for the model only. Exceptions raised while a template runs propagate unchanged and are not modelled.
- Views.RenderLayoutNestsOnce: holds for the model only; a layout template that writes `$this->layout` on the layout view makes PHP render a further layout, as described for Views.Render.
- Views.RenderDelegatesToLayout: assumes the template did not write `$this->layout`, `$this->template` or `$this->path`, as described for Views.Render.
- Views.ArrayMerge: keys PHP stores as integers, including decimal strings such as "5", are outside the model; array_merge renumbers them, and a template can read them through `$locals`.
- Views.LayoutLocals: passes the caller's locals through Views.ArrayMerge, so keys PHP stores as integers are outside the model here and in the layout locals Views.Render passes on; the layout would see them renumbered.
- Application.Serve: treats every given `next` or response as present; PHP also skips a falsy non-null value such as `""`.
- Application.Inject: compares stages by value equality of the abstract stage type, standing for PHP's object identity `===`.

=== FILE: app.dfy ===
/** The middleware stack of `lib/Phluid/App.php`.
    Middleware stages are values of an abstract type `S`; the app's own router is
    the stage `router`, and PHP's identity test `===` becomes equality on `S`.
    The router's route table itself is not part of this model: the app records,
    in order, the registrations it delegates to the router. */
module Application {
  import opened Values

  /** What decides whether a registration applies: a method/path pair as built by `on`,
      or any invocable matcher handed to `route`. */
  datatype Matcher<M> = RequestMatcher(verb: string, path: string) | Invocable(matcher: M)

  /** One call delegated to the router: matcher, filters and the optional action. */
  datatype Registration<M, H> = Registration(matcher: Matcher<M>, filters: H, action: Option<H>)

  /** The state of an app: its router's stage, the middleware stack, whether the router
      has been put on the stack, and the registrations passed to the router so far. */
  datatype App<S, M, H> = App(router: S, middleware: seq<S>, routerMounted: bool,
                              registrations: seq<Registration<M, H>>)

  /** The result of `serve`: the app's new state, the stage list handed to the filter
      runner, and the response that is returned. */
  datatype Served<S, M, H, P> = Served(app: App<S, M, H>, stages: seq<S>, response: P)

  /** A new app owns a fresh router, an empty stack and an unmounted router. */
  function NewApp<S, M, H>(router: S): (a: App<S, M, H>)
    ensures a.router == router && a.middleware == [] && !a.routerMounted && a.registrations == []
  {
    App(router, [], false, [])
  }

  /** The router is recorded as mounted exactly when it is on the stack. */
  predicate MountedIffPresent<S(==), M, H>(a: App<S, M, H>)
  {
    a.routerMounted <==> a.router in a.middleware
  }

  /** How many times the app's router sits on its stack. */
  function RouterCount<S(==), M, H>(a: App<S, M, H>): nat
  {
    multiset(a.middleware)[a.router]
  }

  /** `inject`: pushes a stage on the stack; the mounted flag is raised when the stage is
      the app's own router and is otherwise left as it was. */
  function Inject<S(==), M, H>(a: App<S, M, H>, stage: S): (b: App<S, M, H>)
    ensures b.middleware == a.middleware + [stage]
    ensures stage == a.router ==> b.routerMounted
    ensures stage != a.router ==> b.routerMounted == a.routerMounted
    ensures b.router == a.router && b.registrations == a.registrations
  {
    a.(middleware := a.middleware + [stage],
       routerMounted := if stage == a.router then true else a.routerMounted)
  }

  /** The state change `serve` makes: the router is injected only while it is unmounted. */
  function Mount<S(==), M, H>(a: App<S, M, H>): (b: App<S, M, H>)
    ensures b.routerMounted
    ensures a.routerMounted ==> b == a
    ensures !a.routerMounted ==> b.middleware == a.middleware + [a.router]
    ensures b.router == a.router && b.registrations == a.registrations
  {
    if !a.routerMounted then Inject(a, a.router) else a
  }

  /** `serve`: mounts the router if needed, then hands the filter runner a copy of the stack
      with `next` pushed on it when one is given; returns the given response, or one built
      for the request when none is given. */
  function Serve<S(==), M, H, Q, P>(a: App<S, M, H>, request: Q, response: Option<P>, next: Option<S>,
                                    build: Q -> P): (r: Served<S, M, H, P>)
    ensures r.app == Mount(a)
    ensures next.None? ==> r.stages == r.app.middleware
    ensures next.Some? ==> r.stages == r.app.middleware + [next.value]
    ensures response.Some? ==> r.response == response.value
    ensures response.None? ==> r.response == build(request)
  {
    var res := if response.Some? then response.value else build(request);
    var b := Mount(a);
    var stages := if next.Some? then b.middleware + [next.value] else b.middleware;
    Served(b, stages, res)
  }

  /** `__invoke`: an app used as a middleware stage behaves exactly like `serve`. */
  function Invoke<S(==), M, H, Q, P>(a: App<S, M, H>, request: Q, response: Option<P>, next: Option<S>,
                                     build: Q -> P): (r: Served<S, M, H, P>)
    ensures r == Serve(a, request, response, next, build)
  {
    Serve(a, request, response, next, build)
  }

  /** `route`: delegates one registration to the router and returns the app. */
  function Route<S, M, H>(a: App<S, M, H>, matcher: Matcher<M>, filters: H, action: Option<H>): (b: App<S, M, H>)
    ensures b.registrations == a.registrations + [Registration(matcher, filters, action)]
    ensures b.router == a.router && b.middleware == a.middleware && b.routerMounted == a.routerMounted
  {
    a.(registrations := a.registrations + [Registration(matcher, filters, action)])
  }

  /** `on`: registers with a request matcher built from the method and path. */
  function On<S, M, H>(a: App<S, M, H>, verb: string, path: string, filters: H, action: Option<H>): (b: App<S, M, H>)
    ensures b == Route(a, RequestMatcher(verb, path), filters, action)
    ensures b.registrations == a.registrations + [Registration(RequestMatcher(verb, path), filters, action)]
    ensures b.router == a.router && b.middleware == a.middleware && b.routerMounted == a.routerMounted
  {
    Route(a, RequestMatcher(verb, path), filters, action)
  }

  /** `get`: `on` with the method fixed to GET. */
  function Get<S, M, H>(a: App<S, M, H>, path: string, filters: H, action: Option<H>): (b: App<S, M, H>)
    ensures b == On(a, "GET", path, filters, action)
    ensures b.registrations == a.registrations + [Registration(RequestMatcher("GET", path), filters, action)]
  {
    On(a, "GET", path, filters, action)
  }

  /** `post`: `on` with the method fixed to POST. */
  function Post<S, M, H>(a: App<S, M, H>, path: string, filters: H, action: Option<H>): (b: App<S, M, H>)
    ensures b == On(a, "POST", path, filters, action)
    ensures b.registrations == a.registrations + [Registration(RequestMatcher("POST", path), filters, action)]
  {
    On(a, "POST", path, filters, action)
  }

  /** Serving again never pushes the router a second time: the stored stack after two
      `serve` calls is the stack after the first. */
  lemma ServeMountsAtMostOnce<S, M, H, Q, P>(a: App<S, M, H>, q1: Q, q2: Q, p1: Option<P>, p2: Option<P>,
                                                n1: Option<S>, n2: Option<S>, build: Q -> P)
    ensures Serve(Serve(a, q1, p1, n1, build).app, q2, p2, n2, build).app == Serve(a, q1, p1, n1, build).app
  {
  }

  /** A router injected explicitly before the first `serve` keeps its place, and passing
      `next` leaves the stored stack untouched. */
  lemma ServeKeepsExplicitRouter<S, M, H, Q, P>(a: App<S, M, H>, request: Q, response: Option<P>,
                                                   next: Option<S>, build: Q -> P, i: nat)
    requires MountedIffPresent(a)
    requires i < |a.middleware| && a.middleware[i] == a.router
    ensures Serve(a, request, response, next, build).app.middleware == a.middleware
    ensures Serve(a, request, response, next, build).stages[i] == a.router
  {
  }

  /** `serve` keeps the flag in step with the stack and leaves the router on it exactly once
      when it was absent, and as many times as before otherwise. */
  lemma ServeRouterCount<S, M, H>(a: App<S, M, H>)
    requires MountedIffPresent(a)
    ensures MountedIffPresent(Mount(a))
    ensures RouterCount(Mount(a)) == if RouterCount(a) == 0 then 1 else RouterCount(a)
  {
    if !a.routerMounted {
      assert multiset(a.middleware)[a.router] == 0;
    } else {
      assert multiset(a.middleware)[a.router] > 0;
    }
  }

  /** The operations that change an app's state, as a caller issues them. */
  datatype Op<S, M, H> = InjectOp(stage: S) | ServeOp | RouteOp(registration: Registration<M, H>)

  /** The effect of one operation on the app's state. */
  function Step<S(==), M, H>(a: App<S, M, H>, op: Op<S, M, H>): App<S, M, H>
  {
    match op
    case InjectOp(s) => Inject(a, s)
    case ServeOp => Mount(a)
    case RouteOp(g) => Route(a, g.matcher, g.filters, g.action)
  }

  /** The state after a sequence of operations, applied in order. */
  function Run<S(==), M, H>(a: App<S, M, H>, ops: seq<Op<S, M, H>>): App<S, M, H>
    decreases |ops|
  {
    if |ops| == 0 then a else Run(Step(a, ops[0]), ops[1..])
  }

  /** How many operations explicitly inject `router`. */
  function ExplicitInjects<S(==), M, H>(ops: seq<Op<S, M, H>>, router: S): nat
    decreases |ops|
  {
    if |ops| == 0 then 0
    else (if ops[0] == InjectOp(router) then 1 else 0) + ExplicitInjects(ops[1..], router)
  }

  /** A `serve` comes before any explicit injection of `router`. */
  predicate ServesFirst<S(==), M, H>(ops: seq<Op<S, M, H>>, router: S)
    decreases |ops|
  {
    |ops| > 0 &&
    match ops[0]
    case ServeOp => true
    case InjectOp(s) => s != router && ServesFirst(ops[1..], router)
    case RouteOp(_) => ServesFirst(ops[1..], router)
  }

  /** Along any sequence of operations, the flag stays in step with the stack, and the router
      appears once per explicit injection plus once more if a `serve` mounted it first. */
  lemma {:induction false} RunRouterCount<S, M, H>(a: App<S, M, H>, ops: seq<Op<S, M, H>>)
    requires MountedIffPresent(a)
    ensures Run(a, ops).router == a.router
    ensures MountedIffPresent(Run(a, ops))
    ensures RouterCount(Run(a, ops)) ==
              RouterCount(a) + ExplicitInjects(ops, a.router)
              + (if !a.routerMounted && ServesFirst(ops, a.router) then 1 else 0)
    decreases |ops|
  {
    if |ops| > 0 {
      var b := Step(a, ops[0]);
      RunRouterCount(b, ops[1..]);
      match ops[0] {
        case InjectOp(s) =>
          assert multiset(b.middleware) == multiset(a.middleware) + multiset{s};
        case ServeOp =>
          ServeRouterCount(a);
        case RouteOp(_) =>
      }
    }
  }

  /** An app that never injects its router explicitly has it on the stack exactly once
      after any sequence of operations that serves at least once. */
  lemma ImplicitRouterMountedOnce<S, M, H>(router: S, ops: seq<Op<S, M, H>>, k: nat)
    requires ExplicitInjects(ops, router) == 0
    requires k < |ops| && ops[k] == ServeOp
    ensures RouterCount(Run(NewApp(router), ops)) == 1
  {
    RunRouterCount(NewApp(router), ops);
    ServesFirstWithoutInjects(ops, router, k);
  }

  /** Without an explicit injection of `router`, any `serve` comes before one. */
  lemma {:induction false} ServesFirstWithoutInjects<S, M, H>(ops: seq<Op<S, M, H>>, router: S, k: nat)
    requires ExplicitInjects(ops, router) == 0
    requires k < |ops| && ops[k] == ServeOp
    ensures ServesFirst(ops, router)
    decreases |ops|
  {
    if k > 0 && !ops[0].ServeOp? {
      ServesFirstWithoutInjects(ops[1..], router, k - 1);
    }
  }
}

=== FILE: router.dfy ===
/** The ordered route table of `Classes/Router.php`.
    A route's own matching logic lives outside this model: every operation
    that needs it takes the predicate `matches` as a parameter. */
module Routing {
  import opened Values

  /** A route as built by `new Route($method, $path, $closure)`. */
  datatype Route<H> = Route(verb: string, path: string, closure: H)

  /** The router holds its routes in registration order. */
  datatype Router<H> = Router(routes: seq<Route<H>>)

  /** A freshly constructed router has no routes. */
  function EmptyRouter<H>(): (r: Router<H>)
    ensures |r.routes| == 0
  {
    Router([])
  }

  /** Index of the first element of `rs` that `matches` accepts, scanning front to back. */
  function FirstIndex<R, Q>(rs: seq<R>, matches: (R, Q) -> bool, request: Q): (k: Option<nat>)
    ensures k.Some? ==> k.value < |rs| && matches(rs[k.value], request)
    ensures k.Some? ==> forall j :: 0 <= j < k.value ==> !matches(rs[j], request)
    ensures k.None? <==> forall j :: 0 <= j < |rs| ==> !matches(rs[j], request)
    decreases |rs|
  {
    if |rs| == 0 then None
    else if matches(rs[0], request) then Some(0)
    else match FirstIndex(rs[1..], matches, request)
      case None => None
      case Some(k) => Some(k + 1)
  }

  /** Reference definition of `find`: the route at the first matching index, or nothing. */
  function Find<H, Q>(router: Router<H>, matches: (Route<H>, Q) -> bool, request: Q): Option<Route<H>>
  {
    match FirstIndex(router.routes, matches, request)
    case None => None
    case Some(k) => Some(router.routes[k])
  }

  /** `find`: the foreach loop returning the first route that matches, or null. */
  method FindRoute<H, Q>(router: Router<H>, matches: (Route<H>, Q) -> bool, request: Q)
    returns (r: Option<Route<H>>)
    ensures r.None? <==> forall i :: 0 <= i < |router.routes| ==> !matches(router.routes[i], request)
    ensures r.Some? ==> exists k :: 0 <= k < |router.routes| && router.routes[k] == r.value
                          && matches(router.routes[k], request)
                          && forall j :: 0 <= j < k ==> !matches(router.routes[j], request)
    ensures r == Find(router, matches, request)
  {
    var i := 0;
    while i < |router.routes|
      invariant 0 <= i <= |router.routes|
      invariant forall j :: 0 <= j < i ==> !matches(router.routes[j], request)
    {
      if matches(router.routes[i], request) {
        return Some(router.routes[i]);
      }
      i := i + 1;
    }
    return None;
  }

  /** `route`: pushes a new route at the end and returns the router for chaining. */
  function AddRoute<H>(router: Router<H>, verb: string, path: string, closure: H): (r: Router<H>)
    ensures |r.routes| == |router.routes| + 1
    ensures r.routes[..|router.routes|] == router.routes
    ensures r.routes[|router.routes|] == Route(verb, path, closure)
  {
    Router(router.routes + [Route(verb, path, closure)])
  }

  /** `prepend`: inserts a new route at the front and returns the router for chaining. */
  function Prepend<H>(router: Router<H>, verb: string, path: string, closure: H): (r: Router<H>)
    ensures |r.routes| == |router.routes| + 1
    ensures r.routes[0] == Route(verb, path, closure)
    ensures forall i :: 0 <= i < |router.routes| ==> r.routes[i + 1] == router.routes[i]
  {
    Router([Route(verb, path, closure)] + router.routes)
  }

  /** Any index with the first-match property is the one `FirstIndex` computes. */
  lemma FirstIndexUnique<R, Q>(rs: seq<R>, matches: (R, Q) -> bool, request: Q, k: nat)
    requires k < |rs| && matches(rs[k], request)
    requires forall j :: 0 <= j < k ==> !matches(rs[j], request)
    ensures FirstIndex(rs, matches, request) == Some(k)
  {
  }

  /** Two routes matching the same request: the one registered first wins. */
  lemma EarlierRouteWins<H, Q>(router: Router<H>, matches: (Route<H>, Q) -> bool, request: Q, i: nat, j: nat)
    requires i < j < |router.routes|
    requires matches(router.routes[i], request) && matches(router.routes[j], request)
    ensures Find(router, matches, request).Some?
    ensures FirstIndex(router.routes, matches, request).value <= i
    ensures FirstIndex(router.routes, matches, request).value != j
  {
  }

  /** After `prepend`, the new route shadows every earlier registration for the requests it matches,
      and every other request is routed exactly as before. */
  lemma PrependTakesPrecedence<H, Q>(router: Router<H>, matches: (Route<H>, Q) -> bool, request: Q,
                                     verb: string, path: string, closure: H)
    ensures matches(Route(verb, path, closure), request) ==>
              Find(Prepend(router, verb, path, closure), matches, request) == Some(Route(verb, path, closure))
    ensures !matches(Route(verb, path, closure), request) ==>
              Find(Prepend(router, verb, path, closure), matches, request) == Find(router, matches, request)
  {
    var p := Prepend(router, verb, path, closure);
    assert p.routes[1..] == router.routes;
    if matches(Route(verb, path, closure), request) {
      FirstIndexUnique(p.routes, matches, request, 0);
    }
  }

  /** Appending with `route` never changes the answer for a request that already had a match;
      a request with no match so far is answered by the new route exactly when it matches. */
  lemma AddRouteKeepsEarlierMatches<H, Q>(router: Router<H>, matches: (Route<H>, Q) -> bool, request: Q,
                                          verb: string, path: string, closure: H)
    ensures Find(router, matches, request).Some? ==>
              Find(AddRoute(router, verb, path, closure), matches, request) == Find(router, matches, request)
    ensures Find(router, matches, request).None? ==>
              Find(AddRoute(router, verb, path, closure), matches, request) ==
                (if matches(Route(verb, path, closure), request) then Some(Route(verb, path, closure)) else None)
  {
    var a := AddRoute(router, verb, path, closure);
    match FirstIndex(router.routes, matches, request)
    case Some(k) =>
      FirstIndexUnique(a.routes, matches, request, k);
    case None =>
      if matches(Route(verb, path, closure), request) {
        FirstIndexUnique(a.routes, matches, request, |router.routes|);
      }
  }

  /** Chained `route` calls register in call order. */
  lemma ChainedRoutesKeepOrder<H>(router: Router<H>, m1: string, p1: string, c1: H, m2: string, p2: string, c2: H)
    ensures AddRoute(AddRoute(router, m1, p1, c1), m2, p2, c2).routes
              == router.routes + [Route(m1, p1, c1), Route(m2, p2, c2)]
  {
  }
}

=== FILE: values.dfy ===
/** Failure-carrying wrappers shared by the router, the app and the views. */
module Values {

  /** A value that may be absent; stands for PHP's `null` return or argument. */
  datatype Option<+T> = None | Some(value: T)

  /** The outcome of an operation that may throw. */
  datatype Result<+T, +E> = Success(value: T) | Failure(error: E)
}

=== FILE: view.dfy ===
/** Template rendering with one level of layout, after `lib/Phluid/View.php`.
    Evaluating a PHP template (`include` with the locals extracted into scope) is
    an abstract partial function from the resolved file path and the locals to the
    captured output; `None` means the file could not be included or the template
    returned `false`. */
module Views {
  import opened Values

  /** A local handed to a template: text, or any other PHP value as an opaque handle. */
  datatype Value = Text(text: string) | Opaque(handle: nat)

  /** Template locals, keyed by variable name. */
  type Locals = map<string, Value>

  /** Template evaluation: resolved path and locals to captured output, or `None`
      when the file could not be included or the template returned `false`. */
  type Evaluator = (string, Locals) -> Option<string>

  /** A view: template name, optional layout name, and the template directory
      (a `null` directory concatenates as the empty string, so it is written `""`). */
  datatype View = View(template: string, layout: Option<string>, path: string)

  /** An exception carrying a message and a code. */
  datatype Exception = Exception(message: string, code: int)

  /** The code every missing-view exception carries (an HTTP 404). */
  const MissingViewCode: int := 404

  /** `new Phluid_Exception_MissingView($message)`. */
  function MissingView(message: string): (e: Exception)
    ensures e.message == message && e.code == 404
  {
    Exception(message, MissingViewCode)
  }

  /** PHP truthiness of an optional string: `null`, `""` and `"0"` are false. */
  predicate Truthy(s: Option<string>)
  {
    s.Some? && s.value != "" && s.value != "0"
  }

  /** `fullPath`: the directory, a slash, the template name and the `.php` extension. */
  function FullPath(v: View): (p: string)
    ensures |p| == |v.path| + 1 + |v.template| + 4
    ensures p[..|v.path|] == v.path
    ensures p[|v.path|] == '/'
    ensures p[|v.path| + 1 .. |p| - 4] == v.template
    ensures p[|p| - 4..] == ".php"
  {
    v.path + "/" + v.template + ".php"
  }

  /** Within one directory, distinct templates resolve to distinct files. */
  lemma FullPathInjective(v: View, w: View)
    requires v.path == w.path
    requires FullPath(v) == FullPath(w)
    ensures v.template == w.template
  {
    assert v.template == FullPath(v)[|v.path| + 1 .. |FullPath(v)| - 4];
  }

  /** `getLayout`: nothing when no layout is set; otherwise a view of the layout template
      in the same directory with no layout of its own. */
  function GetLayout(v: View): (r: Option<View>)
    ensures r.None? <==> !Truthy(v.layout)
    ensures r.Some? ==> r.value.template == v.layout.value
    ensures r.Some? ==> r.value.path == v.path
    ensures r.Some? ==> r.value.layout == None
  {
    if Truthy(v.layout) then Some(View(v.layout.value, None, v.path)) else None
  }

  /** The layout of a layout: there is none, so nesting stops after one level. */
  lemma LayoutHasNoLayout(v: View)
    requires GetLayout(v).Some?
    ensures GetLayout(GetLayout(v).value).None?
  {
  }

  /** `array_merge` on string-keyed arrays: every key of either side, the right side winning. */
  function ArrayMerge(left: Locals, right: Locals): (m: Locals)
    ensures m.Keys == left.Keys + right.Keys
    ensures forall k :: k in right ==> m[k] == right[k]
    ensures forall k :: k in left && k !in right ==> m[k] == left[k]
  {
    left + right
  }

  /** The locals a layout sees: the caller's locals with `content` bound to the template's
      output, replacing any `content` the caller passed. */
  function LayoutLocals(locals: Locals, content: string): (m: Locals)
    ensures "content" in m && m["content"] == Text(content)
    ensures forall k :: k in locals && k != "content" ==> k in m && m[k] == locals[k]
    ensures forall k :: k in m ==> k in locals || k == "content"
  {
    ArrayMerge(locals, map["content" := Text(content)])
  }

  /** With a layout set and the template loaded, rendering is rendering the layout view with the
      caller's locals plus `content` bound to the template's output. */
  lemma RenderDelegatesToLayout(v: View, locals: Locals, eval: Evaluator)
    requires eval(FullPath(v), locals).Some? && Truthy(v.layout)
    ensures Render(v, locals, eval) ==
              Render(View(v.layout.value, None, v.path), LayoutLocals(locals, eval(FullPath(v), locals).value), eval)
  {
  }

  /** Rendering the layout view evaluates the layout template once and goes no deeper:
      its result is that template's output, or a missing-view exception naming its path. */
  lemma RenderLayoutNestsOnce(v: View, locals: Locals, eval: Evaluator)
    requires GetLayout(v).Some?
    ensures var l := GetLayout(v).value;
            Render(l, locals, eval) ==
              if eval(FullPath(l), locals).None?
              then Failure(MissingView("Missing template " + FullPath(l)))
              else Success(eval(FullPath(l), locals).value)
  {
  }

  /** `render`: evaluates the template, fails with a missing-view exception naming the full path
      if it cannot be loaded, and otherwise returns its output, wrapped by the layout when one is
      set. The layout is rendered as a view in its own right, so it too can be missing. */
  function Render(v: View, locals: Locals, eval: Evaluator): (r: Result<string, Exception>)
    ensures eval(FullPath(v), locals).None? ==>
              r == Failure(MissingView("Missing template " + FullPath(v)))
    ensures eval(FullPath(v), locals).Some? && !Truthy(v.layout) ==>
              r == Success(eval(FullPath(v), locals).value)
    ensures eval(FullPath(v), locals).Some? && Truthy(v.layout) ==>
              var layoutPath := FullPath(GetLayout(v).value);
              var layoutLocals := locals["content" := Text(eval(FullPath(v), locals).value)];
              r == if eval(layoutPath, layoutLocals).None?
                   then Failure(MissingView("Missing template " + layoutPath))
                   else Success(eval(layoutPath, layoutLocals).value)
    decreases if Truthy(v.layout) then 1 else 0
  {
    var p := FullPath(v);
    match eval(p, locals)
    case None => Failure(MissingView("Missing template " + p))
    case Some(content) =>
      match GetLayout(v)
      case None => Success(content)
      case Some(layout) =>
        var layoutLocals := LayoutLocals(locals, content);
        assert layoutLocals == locals["content" := Text(content)];
        Render(layout, layoutLocals, eval)
  }
}
